=== FILE: README.md ===
# CheerLights colour queries, modelled in Dafny

A model of the reshaping and formatting layer of the CheerLights MCP server
(`server.py`). The server answers two queries about the crowd-controlled
CheerLights colour feed:

- `get_current_color` asks the ThingSpeak channel for one feed entry. It
  answers with the sentence `The current CheerLights color is <color> (as of
  <timestamp>).`
- `get_color_history(count)` first limits `count` to `[1, 100]` and asks for
  that many entries. It answers with the header `Recent CheerLights color
  history (last <n> changes):` and a blank line, followed by one numbered
  line `<i>. <color> (at <timestamp>)` per entry.

Both go through `parse_color_data`. It keeps at most `count` feed entries in
feed order and fills in `unknown` for a missing colour or entry id. It
rewrites `created_at` from `YYYY-MM-DDTHH:MM:SSZ` to `YYYY-MM-DD HH:MM:SS UTC`.
An empty or missing `created_at` becomes `unknown`, and a value that does not
parse is kept unchanged.

The HTTP fetch is not modelled. Its outcome is an input: `Response` is `None`
when the fetch failed, `Some(None)` when the JSON object has no `feeds` key,
and `Some(Some(feeds))` otherwise. The operations take the fetch as a function
from the requested result count to the response. Because of this, the
contracts can say which count was requested.

Modules, one concept each:

- `Wrappers` (`wrappers.dfy`): `Option`, with `GetOr` for Python's `dict.get(key, default)`.
- `Digits` (`digits.dfy`): digit strings, zero-padded fields and canonical decimal numerals.
- `Timestamp` (`timestamp.dfy`): parsing and reformatting of `created_at`.
- `ColorData` (`color_data.dfy`): the feed record, the response and `parse_color_data`.
- `Server` (`server.dfy`): the count limit and the two query operations.

Each operation checks for feeds before it parses (server.py:82 and 111).
Once that check passes, the parse result is never empty, so the two
"Unable to parse …" returns (server.py:88 and 117) can never be reached. `GetCurrentColor` and `GetColorHistory` prove
that their result is never the parse-failure string.

## Model

| member | source | states |
|---|---|---|
| Server.ClampCount | server.py:104-107 | the limited count lies in [1, 100]; a count already in that range is kept; the result is the value of [1, 100] nearest to the request |
| Server.ClampIdempotent | server.py:104-107 | limiting an already-limited count changes nothing |
| Server.ClampMonotone | server.py:104-107 | limiting keeps the order of two requests |
| Server.FailureStringsDistinct | server.py:83-117 | each operation's "Unable to fetch" string (lines 83 and 112) differs from its "Unable to parse" string (lines 88 and 117) |
| Server.CurrentSentenceIsNoFailure | server.py:88-91 | a current-colour sentence is never the parse-failure string |
| Server.CurrentSentence | server.py:91 | the current-colour answer is `The current CheerLights color is <color> (as of <timestamp>).` |
| Server.GetCurrentColor | server.py:80-91 | exactly one result is requested; with no feeds the answer is the fixed fetch-failure string; otherwise it is the sentence built from the first feed entry alone; the parse-failure string is never returned |
| Server.HistoryHeader | server.py:119 | the listing header is `Recent CheerLights color history (last <n> changes):` followed by a blank line, with n in decimal |
| Server.HistoryLine | server.py:122 | line idx of the listing is `<idx>. <color> (at <timestamp>)` followed by a line break |
| Server.HistoryLinesNumbered | server.py:121-122 | the line of record i starts with the numeral of i + 1 and ends with a line break |
| Server.RenderHistory | server.py:119-124 | the listing is the header naming the record count, followed by the numbered lines of every record in order |
| Server.GetColorHistory | server.py:94-124 | the count defaults to 5; the limited count is requested; with no feeds the answer is the fixed fetch-failure string; otherwise the listing is the header and the numbered lines of min(limit, number of feeds) records, at least one; if no colour or created_at among the feeds actually read holds a line break, it has exactly that many lines plus two; the parse-failure string is never returned |
| Server.CountNewlinesAppend | server.py:119-122 | the line breaks of a concatenation are those of its parts |
| Server.HistoryLineNewlines | server.py:122 | a history line of single-line fields ends in its only line break |
| Server.ConcatNewlines | server.py:121-122 | the numbered lines of n single-line records hold exactly n line breaks |
| Server.HistoryNewlines | server.py:119-122 | the header contributes exactly two line breaks, so the listing of n single-line records holds n + 2 |
| Server.ParsedEventsSingleLine | server.py:52-63 | records parsed from feeds without line breaks have none either |
| ColorData.HasFeeds | server.py:46 | the guard shared by the parse and both operations (also at server.py:82 and 111): a response exists, has a feeds key, and its feed list is non-empty |
| ColorData.FeedsOf | server.py:46 | the feed list is non-empty exactly when the response passes the guard |
| ColorData.ParseEvent | server.py:52-68 | a missing colour or entry id becomes "unknown"; present values are copied unchanged; the timestamp is the reformatted created_at, or "unknown" when it is missing |
| ColorData.ParseFeeds | server.py:50-69 | the result has min(count, number of feeds) records, and record i is built from feed i |
| ColorData.ParseColorData | server.py:36-71 | an absent response, a missing feeds key or an empty feed list gives no records; otherwise min(count, number of feeds) records in feed order |
| ColorData.ParseFeedsIgnoresTail | server.py:50 | entries after the first count are never read: appending feeds does not change the result |
| ColorData.ParseNonEmpty | server.py:46-50 | with count >= 1, a response that passes the guard yields at least one record, and the first is built from the first feed |
| Timestamp.ParseIso | server.py:58 | a string parses only if it has twenty characters and denotes a real calendar instant (years 1..9999, day within its month, leap years included, seconds below 60) |
| Timestamp.DatePartValues | server.py:58-59 | the year, month and day of a valid instant read back from its rendered date |
| Timestamp.TimePartValues | server.py:58-59 | the hour, minute and second of a valid instant read back from its rendered time of day |
| Timestamp.IsoShapeSplit | server.py:58 | the parsed shape is a date part, `T`, a time part and `Z`, with `T` and `Z` in either case |
| Timestamp.ParseRenderIso | server.py:58 | every valid instant, written the way upstream sends it, parses back to itself |
| Timestamp.RenderParseIsoAnyCase | server.py:58 | a string that parses is the upstream rendering of its instant, except that its `T` and `Z` may be lower case |
| Timestamp.RenderParseIso | server.py:58 | a string that parses and has upper-case `T` and `Z` is exactly the upstream rendering of its instant |
| Timestamp.DatePartOfShape | server.py:58-59 | the date fields, once read and re-rendered, give back the characters they were read from |
| Timestamp.TimePartOfShape | server.py:58-59 | the time-of-day fields, once read and re-rendered, give back the characters they were read from |
| Timestamp.FormatUtc | server.py:59 | the output format carries the same date and time of day as the upstream rendering, separated by a space and followed by ` UTC` |
| Timestamp.FormatUtcOfParsed | server.py:58-59 | reformatting keeps the date and time as written: `YYYY-MM-DDTHH:MM:SSZ` becomes `YYYY-MM-DD HH:MM:SS UTC` |
| Timestamp.FormatTimestamp | server.py:55-63 | an empty created_at gives "unknown"; a parsable one gives `YYYY-MM-DD HH:MM:SS UTC` from its own characters; any other is returned unchanged |
| Timestamp.FormatTimestampSingleLine | server.py:55-63 | reformatting never introduces a line break |
| Digits.PadDigitsValue | server.py:59 | a zero-padded field reads back as the number written, when the number fits in the width |
| Digits.ValuePadDigits | server.py:58-59 | padding the value of a digit field to its own width gives the field back |
| Digits.NatToStringValue | server.py:119-122 | the decimal numeral of a count or line number reads back as that number |
| Digits.ValueNatToString | server.py:119-122 | every canonical numeral (no leading zero) is the decimal form of its value, so numerals and numbers correspond one to one |

## Left out

- `fetch_cheerlights_data` (server.py:15-34): the asynchronous HTTP GET with its 10-second timeout, the status check, JSON decoding and the printed error log. This is network I/O, so its outcome is the `Response` input.
- The FastMCP server object, the tool registration and the stdio run loop (server.py:9, 73, 93, 126-128). These are framework plumbing.
- Timestamp.ParseIso: accepts only zero-padded two-digit fields. Python's `strptime` also accepts one-digit month, day, hour, minute and second fields, a space-padded day (`2024-03- 1T12:34:56Z`), and non-ASCII decimal digits. The model keeps such strings unchanged where the program would reformat them. The library's exact matching rules are not part of this model.
- Timestamp.FormatUtc: always writes the year as four zero-padded digits. Python's `strftime` hands `%Y` to the platform C library, and some platforms write years below 1000 without padding (`999-01-01 00:00:00 UTC`). For such years, the claim that reformatting keeps the date as written holds only where the C library pads.
- ColorData.ParseColorData: takes a non-negative count. Python's negative-slice behaviour is not modelled, because both callers pass a count of at least 1.
- ColorData.Feed: each field is an optional string. A JSON `null` or a non-string value is not modelled. For example, a numeric `entry_id` is represented by its text.
- Inputs the program does not handle are not modelled; on each it raises an exception instead of returning a failure string. They are a `feeds` value that is not a list, a top-level JSON value that is not an object (the `"feeds" in data` test at server.py:46, 82 and 111 raises), and a feed entry that is not an object (the `feed.get` call at server.py:52 raises).

=== FILE: color_data.dfy ===
/**
 `parse_color_data`: reshaping the upstream feed list into colour events.
 The HTTP fetch is not modelled; its outcome is a `Response` value.
 */
module ColorData {
  import opened Wrappers
  import Timestamp

  /**
   One upstream feed entry; a field is `None` when its key is absent.
   `field1` carries the colour name. The entry id is kept as its text.
   */
  datatype Feed = Feed(field1: Option<string>, createdAt: Option<string>, entryId: Option<string>)

  /** One record of the parse result: `{color, timestamp, entry_id}`. */
  datatype ColorEvent = ColorEvent(color: string, timestamp: string, entryId: string)

  /**
   The outcome of the fetch: `None` when it failed, `Some(None)` for a JSON
   object without a `feeds` key, `Some(Some(feeds))` otherwise.
   */
  type Response = Option<Option<seq<Feed>>>

  /** The response exists and carries a non-empty feed list: the guard both operations apply before parsing. */
  predicate HasFeeds(data: Response) {
    data.Some? && data.value.Some? && |data.value.value| > 0
  }

  /** The feed list of a response, empty when there is none. */
  function FeedsOf(data: Response): (feeds: seq<Feed>)
    ensures |feeds| > 0 <==> HasFeeds(data)
  {
    if data.Some? && data.value.Some? then data.value.value else []
  }

  function Min(a: nat, b: nat): nat {
    if a <= b then a else b
  }

  /** The feed entries the parse reads: the first `count`, or all when there are fewer. */
  function FeedsRead(data: Response, count: nat): seq<Feed> {
    FeedsOf(data)[..Min(count, |FeedsOf(data)|)]
  }

  /** The record built from one feed entry. */
  function ParseEvent(feed: Feed): (e: ColorEvent)
    ensures feed.field1.None? ==> e.color == Timestamp.Unknown
    ensures feed.field1.Some? ==> e.color == feed.field1.value
    ensures feed.entryId.None? ==> e.entryId == Timestamp.Unknown
    ensures feed.entryId.Some? ==> e.entryId == feed.entryId.value
    ensures feed.createdAt.None? ==> e.timestamp == Timestamp.Unknown
    ensures feed.createdAt.Some? ==> e.timestamp == Timestamp.FormatTimestamp(feed.createdAt.value)
  {
    ColorEvent(feed.field1.GetOr(Timestamp.Unknown),
               Timestamp.FormatTimestamp(feed.createdAt.GetOr("")),
               feed.entryId.GetOr(Timestamp.Unknown))
  }

  /** The loop over `feeds[:count]`: one record per entry, in feed order. */
  function ParseFeeds(feeds: seq<Feed>, count: nat): (r: seq<ColorEvent>)
    ensures |r| == Min(count, |feeds|)
    ensures forall i :: 0 <= i < |r| ==> r[i] == ParseEvent(feeds[i])
  {
    if count == 0 || |feeds| == 0 then []
    else [ParseEvent(feeds[0])] + ParseFeeds(feeds[1..], count - 1)
  }

  /** `parse_color_data(data, count)` for a non-negative `count`. */
  function ParseColorData(data: Response, count: nat): (r: seq<ColorEvent>)
    ensures !HasFeeds(data) ==> r == []
    ensures |r| == Min(count, |FeedsOf(data)|)
    ensures forall i :: 0 <= i < |r| ==> r[i] == ParseEvent(FeedsOf(data)[i])
  {
    if !HasFeeds(data) then [] else ParseFeeds(FeedsOf(data), count)
  }

  /** Feeds after the first `count` are never read. */
  lemma ParseFeedsIgnoresTail(feeds: seq<Feed>, rest: seq<Feed>, count: nat)
    requires count <= |feeds|
    ensures ParseFeeds(feeds + rest, count) == ParseFeeds(feeds, count)
  {
  }

  /** With a positive count, a response that passes the guard always yields a record. */
  lemma ParseNonEmpty(data: Response, count: nat)
    requires HasFeeds(data) && count >= 1
    ensures |ParseColorData(data, count)| >= 1
    ensures ParseColorData(data, count)[0] == ParseEvent(FeedsOf(data)[0])
  {
  }
}

=== FILE: digits.dfy ===
/**
 Decimal digit strings: reading a run of digits as a number, writing a number
 zero-padded to a fixed width (strftime's `%Y`, `%m`, ...) and writing it in
 canonical form (Python's `str(n)` on a non-negative integer).
 */
module Digits {

  predicate IsDigit(c: char) {
    '0' <= c <= '9'
  }

  predicate AllDigits(s: string) {
    forall i :: 0 <= i < |s| ==> IsDigit(s[i])
  }

  function DigitValue(c: char): (d: nat)
    requires IsDigit(c)
    ensures d < 10
  {
    c as int - '0' as int
  }

  function DigitChar(d: nat): (c: char)
    requires d < 10
    ensures IsDigit(c) && DigitValue(c) == d
  {
    ('0' as int + d) as char
  }

  lemma DigitCharOfValue(c: char)
    requires IsDigit(c)
    ensures DigitChar(DigitValue(c)) == c
  {
  }

  function Pow10(n: nat): (p: nat)
    ensures p >= 1
  {
    if n == 0 then 1 else 10 * Pow10(n - 1)
  }

  /** The number a run of decimal digits denotes, most significant digit first. */
  function DigitsValue(s: string): (v: nat)
    requires AllDigits(s)
    ensures v < Pow10(|s|)
  {
    if |s| == 0 then 0
    else
      var v' := DigitsValue(s[..|s| - 1]);
      assert v' * 10 <= (Pow10(|s| - 1) - 1) * 10;
      v' * 10 + DigitValue(s[|s| - 1])
  }

  /** `n` written with exactly `width` digits, padded with leading zeros. */
  function PadDigits(n: nat, width: nat): (s: string)
    ensures |s| == width
    ensures AllDigits(s)
  {
    if width == 0 then "" else PadDigits(n / 10, width - 1) + [DigitChar(n % 10)]
  }

  /** Reading back a padded number gives the number, when it fits in the width. */
  lemma {:induction false} PadDigitsValue(n: nat, width: nat)
    requires n < Pow10(width)
    ensures DigitsValue(PadDigits(n, width)) == n
  {
    if width > 0 {
      var s := PadDigits(n, width);
      assert s[..width - 1] == PadDigits(n / 10, width - 1);
      PadDigitsValue(n / 10, width - 1);
    }
  }

  /** Padding the value of a digit string to its own width gives the string back. */
  lemma {:induction false} ValuePadDigits(s: string)
    requires AllDigits(s)
    ensures PadDigits(DigitsValue(s), |s|) == s
  {
    if |s| > 0 {
      var p := s[..|s| - 1];
      var d := DigitValue(s[|s| - 1]);
      var v := DigitsValue(s);
      assert v / 10 == DigitsValue(p) && v % 10 == d;
      ValuePadDigits(p);
      DigitCharOfValue(s[|s| - 1]);
      assert s == p + [s[|s| - 1]];
    }
  }

  /** Canonical decimal form of `n`: no leading zero except for `0` itself. */
  function NatToString(n: nat): (s: string)
    ensures |s| >= 1 && AllDigits(s)
    ensures s[0] == '0' <==> n == 0
    ensures |s| > 1 ==> s[0] != '0'
  {
    if n < 10 then [DigitChar(n)] else NatToString(n / 10) + [DigitChar(n % 10)]
  }

  predicate IsCanonical(s: string) {
    |s| >= 1 && AllDigits(s) && (|s| > 1 ==> s[0] != '0')
  }

  lemma {:induction false} NatToStringValue(n: nat)
    ensures DigitsValue(NatToString(n)) == n
  {
    if n >= 10 {
      var s := NatToString(n);
      assert s[..|s| - 1] == NatToString(n / 10);
      NatToStringValue(n / 10);
    }
  }

  lemma {:induction false} CanonicalPositive(s: string)
    requires IsCanonical(s) && s[0] != '0'
    ensures DigitsValue(s) >= 1
  {
    if |s| > 1 {
      var p := s[..|s| - 1];
      assert p[0] == s[0];
      CanonicalPositive(p);
    }
  }

  /** Every canonical digit string is the decimal form of its value. */
  lemma {:induction false} ValueNatToString(s: string)
    requires IsCanonical(s)
    ensures NatToString(DigitsValue(s)) == s
  {
    var v := DigitsValue(s);
    DigitCharOfValue(s[|s| - 1]);
    if |s| == 1 {
      assert s == [s[0]];
    } else {
      var p := s[..|s| - 1];
      assert p[0] == s[0];
      CanonicalPositive(p);
      assert v / 10 == DigitsValue(p) && v % 10 == DigitValue(s[|s| - 1]);
      ValueNatToString(p);
      assert s == p + [s[|s| - 1]];
    }
  }
}

=== FILE: server.dfy ===
/**
 The two query operations, `get_current_color` and `get_color_history`, with
 the upstream fetch passed in as a function from the requested result count
 to the response it produced.
 */
module Server {
  import opened Digits
  import opened ColorData

  const MinCount: int := 1
  const MaxCount: int := 100
  const DefaultCount: int := 5

  /** Every failure string starts with these words. */
  const Unable := "Unable to "
  const FetchCurrentFailed := Unable + "fetch the current CheerLights color."
  const ParseCurrentFailed := Unable + "parse the current CheerLights color."
  const FetchHistoryFailed := Unable + "fetch CheerLights color history."
  const ParseHistoryFailed := Unable + "parse CheerLights color history."

  lemma FailureStringsDistinct()
    ensures FetchCurrentFailed != ParseCurrentFailed
    ensures FetchHistoryFailed != ParseHistoryFailed
  {
    assert FetchCurrentFailed[|Unable|] == 'f' != ParseCurrentFailed[|Unable|];
    assert FetchHistoryFailed[|Unable|] == 'f' != ParseHistoryFailed[|Unable|];
  }

  function Distance(a: int, b: int): nat {
    if a <= b then b - a else a - b
  }

  /** The limit enforced on a requested history length: the nearest count in `[1, 100]`. */
  function ClampCount(count: int): (c: nat)
    ensures MinCount <= c <= MaxCount
    ensures MinCount <= count <= MaxCount ==> c == count
    ensures forall k :: MinCount <= k <= MaxCount ==> Distance(c, count) <= Distance(k, count)
  {
    var c := if count < MinCount then MinCount else count;
    if c > MaxCount then MaxCount else c
  }

  /** Clamping a count that was already clamped changes nothing. */
  lemma ClampIdempotent(count: int)
    ensures ClampCount(ClampCount(count)) == ClampCount(count)
  {
  }

  /** Clamping never reverses the order of two requests. */
  lemma ClampMonotone(a: int, b: int)
    requires a <= b
    ensures ClampCount(a) <= ClampCount(b)
  {
  }

  function CurrentSentence(e: ColorEvent): string {
    "The current CheerLights color is " + e.color + " (as of " + e.timestamp + ")."
  }

  /** A sentence starts with `T`, the failure strings with `U`. */
  lemma CurrentSentenceIsNoFailure(e: ColorEvent)
    ensures CurrentSentence(e) != ParseCurrentFailed
  {
    var r := CurrentSentence(e);
    assert r == "The current CheerLights color is " + (e.color + " (as of " + e.timestamp + ").");
    assert r[0] == 'T';
  }

  /**
   `get_current_color`: one result is requested; the sentence is built from
   the first feed entry alone, and only a response without feeds fails.
   */
  function GetCurrentColor(fetch: int -> Response): (r: string)
    ensures !HasFeeds(fetch(1)) ==> r == FetchCurrentFailed
    ensures HasFeeds(fetch(1)) ==> r == CurrentSentence(ParseEvent(FeedsOf(fetch(1))[0]))
    ensures r != ParseCurrentFailed
  {
    var data := fetch(1);
    if !HasFeeds(data) then FailureStringsDistinct(); FetchCurrentFailed
    else
      var colorData := ParseColorData(data, 1);
      if |colorData| == 0 then ParseCurrentFailed
      else
        CurrentSentenceIsNoFailure(colorData[0]);
        CurrentSentence(colorData[0])
  }

  function HistoryHeader(n: nat): string {
    "Recent CheerLights color history (last " + NatToString(n) + " changes):\n\n"
  }

  /** Line `idx` of the history listing. */
  function HistoryLine(idx: nat, e: ColorEvent): string {
    NatToString(idx) + ". " + e.color + " (at " + e.timestamp + ")\n"
  }

  /** The listing's lines, one per record in parse order. */
  function HistoryLines(events: seq<ColorEvent>): seq<string> {
    seq(|events|, i requires 0 <= i < |events| => HistoryLine(i + 1, events[i]))
  }

  /** Line `i` of the listing starts with the numeral of `i + 1` and ends with a line break. */
  lemma HistoryLinesNumbered(events: seq<ColorEvent>)
    ensures forall i :: 0 <= i < |events| ==>
      var line := HistoryLines(events)[i];
      && |NatToString(i + 1)| < |line| && line[..|NatToString(i + 1)|] == NatToString(i + 1)
      && line[|line| - 1] == '\n'
  {
  }

  /** The strings of `ss` joined end to end. */
  function Concat(ss: seq<string>): string {
    if |ss| == 0 then "" else Concat(ss[..|ss| - 1]) + ss[|ss| - 1]
  }

  /** The `enumerate` loop appending one numbered line per record to the header. */
  method RenderHistory(events: seq<ColorEvent>) returns (result: string)
    ensures result == HistoryHeader(|events|) + Concat(HistoryLines(events))
  {
    var lines := HistoryLines(events);
    result := HistoryHeader(|events|);
    var idx := 0;
    while idx < |events|
      invariant 0 <= idx <= |events| == |lines|
      invariant result == HistoryHeader(|events|) + Concat(lines[..idx])
    {
      var line := HistoryLine(idx + 1, events[idx]);
      assert line == lines[idx];
      assert lines[..idx + 1][..idx] == lines[..idx];
      assert Concat(lines[..idx + 1]) == Concat(lines[..idx]) + line;
      result := result + line;
      idx := idx + 1;
    }
    assert lines[..idx] == lines;
  }

  /**
   `get_color_history(count)`: the clamped count is requested, and the
   listing holds one line per parsed record, at least one and at most the
   clamped count; only a response without feeds fails.
   */
  method GetColorHistory(fetch: int -> Response, count: int := DefaultCount) returns (result: string)
    ensures !HasFeeds(fetch(ClampCount(count))) ==> result == FetchHistoryFailed
    ensures HasFeeds(fetch(ClampCount(count))) ==>
      1 <= |ParseColorData(fetch(ClampCount(count)), ClampCount(count))|
    ensures HasFeeds(fetch(ClampCount(count))) ==>
      result == HistoryHeader(|ParseColorData(fetch(ClampCount(count)), ClampCount(count))|)
                + Concat(HistoryLines(ParseColorData(fetch(ClampCount(count)), ClampCount(count))))
    ensures HasFeeds(fetch(ClampCount(count)))
            && FeedsSingleLine(FeedsRead(fetch(ClampCount(count)), ClampCount(count))) ==>
      CountNewlines(result) == |FeedsRead(fetch(ClampCount(count)), ClampCount(count))| + 2
    ensures result != ParseHistoryFailed
  {
    var n := ClampCount(count);
    var data := fetch(n);
    if !HasFeeds(data) {
      FailureStringsDistinct();
      return FetchHistoryFailed;
    }
    var colorData := ParseColorData(data, n);
    if |colorData| == 0 {
      return ParseHistoryFailed;
    }
    result := RenderHistory(colorData);
    var read := FeedsRead(data, n);
    if FeedsSingleLine(read) {
      ParsedEventsSingleLine(read, colorData);
      HistoryNewlines(colorData);
    }
    assert result[0] != ParseHistoryFailed[0];
  }

  /** The number of newline characters in `s`. */
  function CountNewlines(s: string): nat {
    if |s| == 0 then 0 else CountNewlines(s[..|s| - 1]) + (if s[|s| - 1] == '\n' then 1 else 0)
  }

  lemma {:induction false} CountNewlinesAppend(a: string, b: string)
    ensures CountNewlines(a + b) == CountNewlines(a) + CountNewlines(b)
  {
    if |b| == 0 {
      assert a + b == a;
    } else {
      assert (a + b)[..|a + b| - 1] == a + b[..|b| - 1];
      assert (a + b)[|a + b| - 1] == b[|b| - 1];
      CountNewlinesAppend(a, b[..|b| - 1]);
    }
  }

  lemma {:induction false} CountNewlinesNone(s: string)
    requires '\n' !in s
    ensures CountNewlines(s) == 0
  {
    if |s| > 0 {
      assert s[|s| - 1] in s;
      assert forall c :: c in s[..|s| - 1] ==> c in s;
      CountNewlinesNone(s[..|s| - 1]);
    }
  }

  predicate SingleLine(e: ColorEvent) {
    '\n' !in e.color && '\n' !in e.timestamp
  }

  lemma HistoryLineNewlines(idx: nat, e: ColorEvent)
    requires SingleLine(e)
    ensures CountNewlines(HistoryLine(idx, e)) == 1
  {
    var digits := NatToString(idx);
    assert '\n' !in digits by {
      assert forall i :: 0 <= i < |digits| ==> IsDigit(digits[i]);
    }
    var front := digits + ". " + e.color + " (at " + e.timestamp + ")";
    assert '\n' !in front;
    CountNewlinesNone(front);
    CountNewlinesAppend(front, "\n");
    assert HistoryLine(idx, e) == front + "\n";
    assert CountNewlines("\n") == 1 by {
      assert "\n"[..0] == "";
    }
  }

  lemma {:induction false} ConcatNewlines(events: seq<ColorEvent>)
    requires forall i :: 0 <= i < |events| ==> SingleLine(events[i])
    ensures CountNewlines(Concat(HistoryLines(events))) == |events|
  {
    if |events| > 0 {
      var k := |events| - 1;
      var lines := HistoryLines(events);
      assert lines[..k] == HistoryLines(events[..k]);
      ConcatNewlines(events[..k]);
      CountNewlinesAppend(Concat(lines[..k]), lines[k]);
      HistoryLineNewlines(k + 1, events[k]);
    }
  }

  /**
   When no colour or timestamp spans several lines, the listing is exactly
   the two header lines followed by one line per record.
   */
  lemma HistoryNewlines(events: seq<ColorEvent>)
    requires forall i :: 0 <= i < |events| ==> SingleLine(events[i])
    ensures CountNewlines(HistoryHeader(|events|) + Concat(HistoryLines(events))) == |events| + 2
  {
    var digits := NatToString(|events|);
    assert '\n' !in digits by {
      assert forall i :: 0 <= i < |digits| ==> IsDigit(digits[i]);
    }
    var front := "Recent CheerLights color history (last " + digits + " changes):";
    assert '\n' !in front;
    CountNewlinesNone(front);
    CountNewlinesAppend(front, "\n\n");
    assert CountNewlines("\n\n") == 2 by {
      assert "\n\n"[..1] == "\n";
      assert "\n"[..0] == "";
    }
    assert HistoryHeader(|events|) == front + "\n\n";
    CountNewlinesAppend(HistoryHeader(|events|), Concat(HistoryLines(events)));
    ConcatNewlines(events);
  }

  /** No colour and no `created_at` of the feeds contains a line break. */
  predicate FeedsSingleLine(feeds: seq<Feed>) {
    forall i :: 0 <= i < |feeds| ==>
      && (feeds[i].field1.Some? ==> '\n' !in feeds[i].field1.value)
      && (feeds[i].createdAt.Some? ==> '\n' !in feeds[i].createdAt.value)
  }

  lemma ParsedEventsSingleLine(feeds: seq<Feed>, events: seq<ColorEvent>)
    requires FeedsSingleLine(feeds)
    requires |events| <= |feeds|
    requires forall i :: 0 <= i < |events| ==> events[i] == ParseEvent(feeds[i])
    ensures forall i :: 0 <= i < |events| ==> SingleLine(events[i])
  {
  }
}

=== FILE: timestamp.dfy ===
/**
 The timestamp reformatting of `parse_color_data`: an upstream `created_at`
 such as `2024-03-01T12:34:56Z` is parsed with the pattern
 `%Y-%m-%dT%H:%M:%SZ` and re-rendered with `%Y-%m-%d %H:%M:%S UTC`; an empty
 value becomes `unknown`, and a value that does not parse is kept as it is.
 */
module Timestamp {
  import opened Wrappers
  import opened Digits

  /** The default for a missing colour or entry id and for an empty or missing created_at. */
  const Unknown := "unknown"

  /** A calendar instant as the parser reads it. */
  datatype DateTime = DateTime(year: nat, month: nat, day: nat, hour: nat, minute: nat, second: nat)

  predicate IsLeapYear(y: nat) {
    y % 4 == 0 && (y % 100 != 0 || y % 400 == 0)
  }

  function DaysInMonth(y: nat, m: nat): (d: nat)
    requires 1 <= m <= 12
    ensures 28 <= d <= 31
  {
    if m == 2 then (if IsLeapYear(y) then 29 else 28)
    else if m == 4 || m == 6 || m == 9 || m == 11 then 30
    else 31
  }

  /** The values a date-time object accepts: years 1..9999, real calendar days, seconds below 60. */
  predicate Valid(dt: DateTime) {
    && 1 <= dt.year <= 9999
    && 1 <= dt.month <= 12
    && 1 <= dt.day <= DaysInMonth(dt.year, dt.month)
    && dt.hour < 24
    && dt.minute < 60
    && dt.second < 60
  }

  /**
   The fixed-width shape of `%Y-%m-%dT%H:%M:%SZ`: twenty characters, digits
   where the fields are. The pattern is matched ignoring case, so the literal
   `T` and `Z` may also be lower case.
   */
  predicate IsoShape(s: string) {
    && |s| == 20
    && AllDigits(s[0..4]) && s[4] == '-'
    && AllDigits(s[5..7]) && s[7] == '-'
    && AllDigits(s[8..10]) && (s[10] == 'T' || s[10] == 't')
    && AllDigits(s[11..13]) && s[13] == ':'
    && AllDigits(s[14..16]) && s[16] == ':'
    && AllDigits(s[17..19]) && (s[19] == 'Z' || s[19] == 'z')
  }

  /** The `YYYY-MM-DD` part of the shape. */
  predicate IsoShapeDate(d: string) {
    |d| == 10 && AllDigits(d[0..4]) && d[4] == '-' && AllDigits(d[5..7]) && d[7] == '-' && AllDigits(d[8..10])
  }

  /** The `HH:MM:SS` part of the shape. */
  predicate IsoShapeTime(t: string) {
    |t| == 8 && AllDigits(t[0..2]) && t[2] == ':' && AllDigits(t[3..5]) && t[5] == ':' && AllDigits(t[6..8])
  }

  /** The full shape is a date part, `T`, a time part and `Z`, in either case. */
  lemma IsoShapeSplit(s: string)
    requires |s| == 20
    ensures IsoShape(s) <==>
      IsoShapeDate(s[..10]) && (s[10] == 'T' || s[10] == 't') && IsoShapeTime(s[11..19]) && (s[19] == 'Z' || s[19] == 'z')
  {
    var d, t := s[..10], s[11..19];
    assert d[0..4] == s[0..4] && d[5..7] == s[5..7] && d[8..10] == s[8..10];
    assert t[0..2] == s[11..13] && t[3..5] == s[14..16] && t[6..8] == s[17..19];
  }

  function FieldsOf(s: string): DateTime
    requires IsoShape(s)
  {
    DateTime(DigitsValue(s[0..4]), DigitsValue(s[5..7]), DigitsValue(s[8..10]),
             DigitsValue(s[11..13]), DigitsValue(s[14..16]), DigitsValue(s[17..19]))
  }

  /** `strptime(s, "%Y-%m-%dT%H:%M:%SZ")`: `None` stands for the exception it raises. */
  function ParseIso(s: string): (r: Option<DateTime>)
    ensures r.Some? ==> |s| == 20 && Valid(r.value)
  {
    if IsoShape(s) && Valid(FieldsOf(s)) then Some(FieldsOf(s)) else None
  }

  /** `YYYY-MM-DD`, each field zero-padded. */
  function DatePart(dt: DateTime): (r: string)
    ensures |r| == 10
  {
    PadDigits(dt.year, 4) + "-" + PadDigits(dt.month, 2) + "-" + PadDigits(dt.day, 2)
  }

  /** `HH:MM:SS`, each field zero-padded. */
  function TimePart(dt: DateTime): (r: string)
    ensures |r| == 8
  {
    PadDigits(dt.hour, 2) + ":" + PadDigits(dt.minute, 2) + ":" + PadDigits(dt.second, 2)
  }

  /** The upstream rendering of an instant, `YYYY-MM-DDTHH:MM:SSZ`. */
  function RenderIso(dt: DateTime): (r: string)
    ensures |r| == 20
  {
    DatePart(dt) + "T" + TimePart(dt) + "Z"
  }

  /** `strftime("%Y-%m-%d %H:%M:%S UTC")`. */
  function FormatUtc(dt: DateTime): (r: string)
    ensures |r| == 23
    ensures r == RenderIso(dt)[..10] + " " + RenderIso(dt)[11..19] + " UTC"
  {
    assert RenderIso(dt)[..10] == DatePart(dt) && RenderIso(dt)[11..19] == TimePart(dt);
    DatePart(dt) + " " + TimePart(dt) + " UTC"
  }

  /** The date fields of a valid instant read back from its rendering. */
  lemma DatePartValues(dt: DateTime)
    requires Valid(dt)
    ensures var d := DatePart(dt);
      && IsoShapeDate(d)
      && DigitsValue(d[0..4]) == dt.year && DigitsValue(d[5..7]) == dt.month && DigitsValue(d[8..10]) == dt.day
  {
    var d := DatePart(dt);
    assert d[0..4] == PadDigits(dt.year, 4);
    assert d[5..7] == PadDigits(dt.month, 2);
    assert d[8..10] == PadDigits(dt.day, 2);
    PadDigitsValue(dt.year, 4);
    PadDigitsValue(dt.month, 2);
    PadDigitsValue(dt.day, 2);
  }

  /** The time-of-day fields of a valid instant read back from its rendering. */
  lemma TimePartValues(dt: DateTime)
    requires Valid(dt)
    ensures var t := TimePart(dt);
      && IsoShapeTime(t)
      && DigitsValue(t[0..2]) == dt.hour && DigitsValue(t[3..5]) == dt.minute && DigitsValue(t[6..8]) == dt.second
  {
    var t := TimePart(dt);
    assert t[0..2] == PadDigits(dt.hour, 2);
    assert t[3..5] == PadDigits(dt.minute, 2);
    assert t[6..8] == PadDigits(dt.second, 2);
    PadDigitsValue(dt.hour, 2);
    PadDigitsValue(dt.minute, 2);
    PadDigitsValue(dt.second, 2);
  }

  /** Every valid instant, rendered the way upstream sends it, parses back to itself. */
  lemma ParseRenderIso(dt: DateTime)
    requires Valid(dt)
    ensures ParseIso(RenderIso(dt)) == Some(dt)
  {
    var s := RenderIso(dt);
    var d, t := DatePart(dt), TimePart(dt);
    DatePartValues(dt);
    TimePartValues(dt);
    assert s[..10] == d && s[11..19] == t;
    IsoShapeSplit(s);
    assert s[0..4] == d[0..4] && s[5..7] == d[5..7] && s[8..10] == d[8..10];
    assert s[11..13] == t[0..2] && s[14..16] == t[3..5] && s[17..19] == t[6..8];
  }

  /** The date fields of a well-shaped string, re-rendered, are the characters they were read from. */
  lemma DatePartOfShape(s: string)
    requires IsoShape(s)
    ensures DatePart(FieldsOf(s)) == s[..10]
  {
    ValuePadDigits(s[0..4]);
    ValuePadDigits(s[5..7]);
    ValuePadDigits(s[8..10]);
    assert s[..10] == s[0..4] + [s[4]] + s[5..7] + [s[7]] + s[8..10];
  }

  /** The time-of-day fields of a well-shaped string, re-rendered, are the characters they were read from. */
  lemma TimePartOfShape(s: string)
    requires IsoShape(s)
    ensures TimePart(FieldsOf(s)) == s[11..19]
  {
    ValuePadDigits(s[11..13]);
    ValuePadDigits(s[14..16]);
    ValuePadDigits(s[17..19]);
    assert s[11..19] == s[11..13] + [s[13]] + s[14..16] + [s[16]] + s[17..19];
  }

  /**
   A string that parses is the upstream rendering of its instant, once its
   `T` and `Z` are written in upper case.
   */
  lemma RenderParseIsoAnyCase(s: string)
    requires ParseIso(s).Some?
    ensures RenderIso(ParseIso(s).value) == s[..10] + "T" + s[11..19] + "Z"
  {
    DatePartOfShape(s);
    TimePartOfShape(s);
  }

  /** A string that parses and uses upper-case `T` and `Z` is exactly the rendering of its instant. */
  lemma RenderParseIso(s: string)
    requires ParseIso(s).Some? && s[10] == 'T' && s[19] == 'Z'
    ensures RenderIso(ParseIso(s).value) == s
  {
    RenderParseIsoAnyCase(s);
    assert s == s[..10] + [s[10]] + s[11..19] + [s[19]];
  }

  /** Reformatting keeps the date and the time of day as they were written. */
  lemma FormatUtcOfParsed(s: string)
    requires ParseIso(s).Some?
    ensures FormatUtc(ParseIso(s).value) == s[..10] + " " + s[11..19] + " UTC"
  {
    DatePartOfShape(s);
    TimePartOfShape(s);
  }

  /**
   The timestamp `parse_color_data` stores for a raw `created_at` (the empty
   string when the key is missing).
   */
  function FormatTimestamp(raw: string): (r: string)
    ensures raw == "" ==> r == Unknown
    ensures raw != "" && ParseIso(raw).Some? ==> r == raw[..10] + " " + raw[11..19] + " UTC"
    ensures raw != "" && ParseIso(raw).None? ==> r == raw
  {
    if raw == "" then Unknown
    else
      match ParseIso(raw)
      case Some(dt) => FormatUtcOfParsed(raw); FormatUtc(dt)
      case None => raw
  }

  /** Reformatting never introduces a line break. */
  lemma FormatTimestampSingleLine(raw: string)
    requires '\n' !in raw
    ensures '\n' !in FormatTimestamp(raw)
  {
  }
}

=== FILE: wrappers.dfy ===
/** Optional values: a JSON key that may be absent, a response that may not exist. */
module Wrappers {

  datatype Option<+T> = None | Some(value: T) {

    /** The wrapped value, or `default` when there is none (Python's `dict.get(key, default)`). */
    function GetOr(default: T): T {
      match this
      case Some(v) => v
      case None => default
    }
  }
}
